=== FILE: README.md ===
# yahi-db storage core in Dafny

A model of the storage core of yahi-db, a small single-file database engine.
The model covers two layers.

- **Block file layer** (`BlockIO`, blockio.dfy). A table file is a flat byte
  sequence cut into blocks of `BLOCKSIZE` = 200 bytes. Block `n` starts at byte
  `n * 200`. The file is modelled as `seq<byte>`, so `blk_flen` is simply
  `|file|` and has no member of its own. `blk_offset`, `blk_write`, `blk_read`
  and `blk_new` are pure functions that return the count the C function returns
  together with the file (or buffer) afterwards.
- **Buffer pool** (`Page`, page.dfy; `PgBuffer`, pgbuffer.dfy). The pool is a
  sequence of frames plus an initialized flag and the recorded pool size. Each
  frame has a 200-byte buffer, a block number, an owning table or none, a
  modified flag and a pin count. The disk is a `map` from table identity to that
  table's file. Every pool operation is a pure transition function that reuses
  the block-layer functions for write-back and loading.
- The pool invariant comes in two parts. `WellFormed` says the frame array
  matches the pool size and every frame can be written back. `Init` requires
  nothing. `Unpin` and `MarkModified` require only `Usable` (see below). The
  operations that load or write back (`Load`, `FindAndLoad`, `Pin`, `Destroy`)
  require `WellFormed`. `Valid` adds that no block is resident twice.
- `PgBufferProps` (pgbuffer_props.dfy) proves the properties that relate several
  operations:
  - `Valid` is kept by init, pin, unpin, mark-modified and destroy, so no two
    frames ever hold the same (table, block) when blocks come in through
    find-or-load; a direct `buff_load` of a resident block is shown to break it;
  - pin followed by unpin undoes the pin;
  - an evicted block is no longer found;
  - destroying the pool writes every modified frame back;
  - the full-pool eviction walked through by the unit tests ends as they expect.

Modelling choices:

- Table identity is the `TableId` datatype. The C code compares tables by the
  address of their `name` array (src/pgbuffer.c:76), so two tables are the same
  exactly when they are the same table record. Nothing inside a table matters to
  the pool.
- A frame with no table never matches a lookup. In C its `tbl` is NULL, and
  evaluating `tbl->name` is undefined behaviour. In practice the compared
  address is the field offset, which is never a real table's name address.
- `buff_load` busy-waits when every frame is pinned. This is modelled as the
  explicit result `Spins` instead of a loop that never returns.
- After `buff_pool_destroy`, `_POOL_SIZE` keeps its value while the frame array
  is gone. A later scan would index a NULL array. The predicate `Usable`
  (initialized, or size <= 0) is therefore a precondition of the pool-level
  operations `Unpin`, `MarkModified`, `Load`, `FindAndLoad`, `Pin` and
  `Destroy`. `Find` and `FirstUnpinned` work on the frame sequence itself and
  require nothing.
- Block numbers are limited to `0 <= n <= 10737418` (`INT_MAX / 200`). This
  keeps `blk_offset` from overflowing a C `int` and excludes negative block
  numbers.
- The file is a `seq<byte>` with no stored length. When the function itself
  does not check the length, a precondition states the bound (see `New`).
- Behaviour of the code that the model keeps as written:
  - `blk_write` to a block that starts before the end of file but ends after
    it runs past the old end, so the file grows to `offset + 200`. A file can
    therefore grow by less than a whole block.
  - `buff_flush` never clears the modified flag. The flag is reset only by
    `buff_load` (src/pgbuffer.c:118), by `buff_erase`, which zeroes the whole
    frame (src/pgbuffer.c:139), and by init, whose frames start zeroed
    (src/pgbuffer.c:44).
  - A short `blk_read` leaves the rest of the buffer as it was. A frame loaded
    from a block cut short by end of file keeps the victim's old bytes past the
    short count.
  - Tables are compared by identity (the address of the table record), not by
    name and database.
  - The victim is the lowest-index unpinned frame.

## Model

| member | source | states |
|---|---|---|
| BlockIO.Offset | src/blockio.c:25-28 | the offset of block n is block aligned, divides back to n, and fits in a C int for every accepted block number |
| BlockIO.Write | src/blockio.c:52-66 | a NULL buffer, or a block starting at or past end of file, returns 0 and leaves the file as it was; otherwise it returns 200, stores the data as block n, changes no byte outside the block, and the file length becomes max(old length, offset + 200), so a block wholly inside the file keeps the length |
| BlockIO.Read | src/blockio.c:75-84 | returns min(200, max(0, length - offset)) and fills exactly that many buffer bytes with the file's bytes from the offset; the rest of the buffer is unchanged |
| BlockIO.New | src/blockio.c:93-114 | returns the old length divided by 200, the file grows by exactly 200 bytes, the old bytes are kept and every appended byte is zero |
| BlockIO.OffsetsTile | src/blockio.c:25-28 | blocks of consecutive numbers are adjacent, blocks of smaller numbers end before larger ones start, and distinct numbers have distinct offsets |
| BlockIO.ReadStored | src/blockio.c:75-84 | reading a block that lies wholly inside the file returns 200 and exactly its bytes |
| BlockIO.ReadAfterWrite | tests/blockio_tests.c:194-230 | after an accepted write, reading the same block returns 200 and the written bytes, whatever the buffer held |
| BlockIO.WriteLeavesOtherBlocks | src/blockio.c:56-61 | a write to block n does not change what a read of any other block returns |
| BlockIO.StoredSurvivesOtherWrite | src/blockio.c:56-61 | a block holding some bytes still holds them after a write to a different block |
| BlockIO.WriteIdempotent | src/blockio.c:52-66 | writing the same bytes to the same block twice leaves the same file and count as writing them once |
| BlockIO.AppendThenWrite | src/blockio.c:56-61 | on a file of whole blocks, the id from blk_new starts at the old end of file, so a write to it before the append is refused; after the append it reads back as 200 zeros, and a write to it succeeds, keeps the length and reads back |
| Page.Erase | src/pgbuffer.c:137-140 | an erased frame holds no block of any table, is unpinned and unmodified, has block number 0 and a zero-filled buffer |
| PgBuffer.Init | src/pgbuffer.c:31-50 | on an uninitialized pool with size n >= 0, returns 1 and creates n unassigned, unpinned, unmodified frames with block number 0 and a zero-filled buffer; an initialized pool or a negative size returns 0 and leaves the pool exactly as it was |
| PgBuffer.Flush | src/pgbuffer.c:129-134 | an unmodified frame writes nothing; a modified frame's buffer is stored at its block in its table's file unless the block starts at or past end of file, in which case nothing changes; the file is then max(old length, offset + 200) bytes long; other tables' files and the other bytes of the file are unchanged, and no file shrinks |
| PgBuffer.FlushAll | src/pgbuffer.c:55-58 | flushing every frame in order keeps the set of tables and never shrinks a file, and leaves the file of every table with no modified frame unchanged |
| PgBuffer.FlushAllKeepsLength | src/pgbuffer.c:55-58 | a file all of whose modified frames lie wholly inside it keeps its length through an ordered flush of the frames |
| PgBuffer.Destroy | src/pgbuffer.c:53-64 | afterwards the pool is uninitialized with no frames and the same recorded size, and tables with no modified frame keep their files |
| PgBuffer.Find | src/pgbuffer.c:67-84 | returns the lowest-index frame whose table and block number both match, or none exactly when no frame matches |
| PgBuffer.FirstUnpinned | src/pgbuffer.c:105-107 | the victim is the lowest-index frame with pin count 0, or none exactly when every frame is pinned |
| PgBuffer.Load | src/pgbuffer.c:100-126 | spins exactly when every frame is pinned; otherwise reuses the lowest-index unpinned frame and leaves every other frame as it was; the disk afterwards is exactly the victim's flush, so a modified victim's old bytes are first stored at its old block, the rest of its file is kept, a refused write-back changes nothing and a clean victim writes nothing; the frame then holds (table, block), unpinned and unmodified, with the file's bytes up to the read count and its old bytes after it |
| PgBuffer.FindAndLoad | src/pgbuffer.c:87-96 | a resident block is returned with pool and disk unchanged; a block that is not resident gives exactly the load result (victim choice, flush and read as for Load); it spins only when the block is not resident and every frame is pinned; the returned frame holds the block, the pool stays well formed, and a pool with no block resident twice still has none |
| PgBuffer.Pin | src/pgbuffer.c:143-149 | a resident block keeps its frame, whose pin count goes up by one and nothing else changes; a non-resident block goes into the lowest-index unpinned frame with pin count 1, unmodified, all other frames unchanged; the frame, its bytes and the disk are those find-or-load gives, so a dirty victim is flushed first |
| PgBuffer.Unpin | src/pgbuffer.c:152-161 | returns 0 with no change when the block is not resident, -1 with no change when its pin count is 0, otherwise lowers that frame's pin count by one and returns 1 |
| PgBuffer.MarkModified | src/pgbuffer.c:186-193 | returns 0 with no change when the block is not resident; otherwise sets only that frame's modified flag and returns 1 |
| PgBufferProps.FindIsUnique | src/pgbuffer.c:76-77 | in a duplicate-free pool, the frame holding (table, block) is the one found for it |
| PgBufferProps.InitKeepsValid | src/pgbuffer.c:31-50 | the pool before any init satisfies the pool invariant, and init keeps it |
| PgBufferProps.PinKeepsValid | src/pgbuffer.c:87-96 | pinning keeps the invariant (no two frames hold the same table and block, because loading only happens after the lookup missed) and the block is then found in the returned frame |
| PgBufferProps.UnpinKeepsValid | src/pgbuffer.c:152-161 | unpinning keeps the pool invariant |
| PgBufferProps.MarkModifiedKeepsValid | src/pgbuffer.c:186-193 | marking modified keeps the pool invariant; only a frame holding a table is ever marked |
| PgBufferProps.PinThenUnpin | tests/pgbuffer_tests.c:130-152 | pin followed by unpin of the same block returns 1 and leaves the pool as find-or-load alone would: exactly the prior pool when the block was resident |
| PgBufferProps.EvictedNotFound | tests/pgbuffer_tests.c:227-229 | after a non-resident pin reuses a frame, the block that frame held before is no longer found |
| PgBufferProps.DirectLoadDuplicates | src/pgbuffer.c:100-126 | buff_load called directly on a resident block, when another frame is the first unpinned one, leaves two frames holding the same block, so uniqueness rests on loading only after find misses |
| PgBufferProps.PinLoadsFileBytes | tests/pgbuffer_tests.c:101-106 | a non-resident pin into a clean victim writes nothing, and when the block lies wholly in its file the frame holds exactly the block's bytes |
| PgBufferProps.FlushIdempotent | src/pgbuffer.c:129-134 | since flushing does not clear the modified flag, flushing a frame twice leaves the disk as flushing once |
| PgBufferProps.FlushAllKeepsStored | src/pgbuffer.c:55-58 | a stored block is kept through flushing frames none of which is a modified frame holding that block |
| PgBufferProps.FlushAllWritesBack | src/pgbuffer.c:55-58 | in a duplicate-free frame sequence, every modified frame whose block starts inside its file is stored there after all frames are flushed |
| PgBufferProps.DestroyWritesBack | src/pgbuffer.c:53-64 | destroy stores every modified frame's buffer at its block in its table's file (when the block starts inside the file) |
| PgBufferProps.DestroyKeepsLength | src/pgbuffer.c:53-58 | destroying the pool keeps the length of a table's file when every modified frame of that table lies wholly inside it |
| PgBufferProps.DestroyKeepsValid | src/pgbuffer.c:53-64 | for every well-formed pool, the pool destroy leaves satisfies the invariant, is scannable only when the recorded size is at most 0, and can be initialized again |
| PgBufferProps.PinWritesBackVictim | src/pgbuffer.c:108-110 | a pin of a block that is not resident writes the evicted dirty victim's bytes to its old block (when that block starts inside its file) and changes no other table's file |
| PgBufferProps.EraseKeepsDistinct | src/pgbuffer.c:137-140 | erasing any frame of a duplicate-free frame sequence keeps it duplicate-free, and the erased frame is found for no block |
| PgBufferProps.PinIntoCleanVictim | tests/pgbuffer_tests.c:89-126 | a non-resident pin whose lowest unpinned frame is clean lands in that frame with pin count 1, writes nothing and keeps the invariant |
| PgBufferProps.FullPoolEviction | tests/pgbuffer_tests.c:193-232 | with frames holding blocks 0, 1, 2 pinned 1, 0, 1, pinning block 4 reuses frame 1 with pin count 1; frames 0 and 2 are untouched, block 1 is no longer found, and blocks 0, 2, 4 are found in frames 0, 2, 1 |

## Left out

- `buff_lock`, `buff_unlock` and the per-frame `sem_t` (src/pgbuffer.c:164-183): these are blocking concurrency. `buff_unlock` also calls `sem_close` instead of posting, so it has no coherent sequential meaning. Frames carry no lock state.
- Concurrency in general: every operation is one atomic transition. The window between lookup and pin increment is not modelled.
- Real file I/O: seek, tell, read and write failures, partial writes, and the `-1` that `blk_new` returns on a short write. Writes are all-or-nothing on the byte sequence.
- The return values of `blk_read` and `blk_write` inside the pool (src/pgbuffer.c:113, 132): the C code ignores them, and so does the model.
- Allocation failure: the abort in `blk_new` and a failing `calloc` in `buff_pool_init` for a non-negative size. A negative size, whose allocation always fails, is modelled.
- `buff_pool_init(0)`: this relies on `calloc(0, …)` returning a non-NULL pointer. The model takes that as success with no frames.
- `buff_find_pg` on a destroyed pool whose recorded size is positive: C indexes the NULL frame array (src/pgbuffer.c:62, 74-76), while `Find` on the empty frame sequence answers "not found". The pool-level operations exclude this state through `Usable`.
- Negative block numbers and block numbers whose offset overflows a C `int`: these are excluded by `ValidBlkNo`. In C the overflowing product is undefined behaviour. In practice it wraps and can land on a valid offset: `21474837 * 200` wraps to 104, so `blk_write` writes bytes 104 to 303. A negative offset passes the end-of-file test, the seek fails, and the I/O happens at the current file position.
- Distinct table records are assumed to have distinct files: the disk maps each `TableId` to its own byte sequence. In C the table layer does not keep the handle it opens: the record built at table.c:40-45 sets no `file`, and a record's `file` is set by whoever uses it (tests/pgbuffer_tests.c:266). Nothing stops two records, or a record and a struct copy of it, from holding handles to one path. The pool would then cache one block under two identities, and a flush through one would not be seen by a frame loaded through the other.
- PgBuffer.Pin: the pin count is an unbounded `nat`. The C `int` would overflow after 2^31 pins.
- BlockIO.New: the requirement that the file length divided by 200 fits in an `int` stands in for the C truncation of `off_t` to `int`.
- The page accessors `pg_getint`, `pg_setint` and the others (include/page.h:39-45): no shown file implements them.
- The legacy storage manager, src/page.c, src/pageman.c, the table layer and types.c: these are not part of this model. They are either superseded prototypes or the table and schema layer, which the pool uses only as an identity.
- The full five-step sequence from the pool test (init, three pins, unpin, pin): `FullPoolEviction` starts from the pool state the test asserts just before the last pin (tests/pgbuffer_tests.c:206-208) instead of replaying the earlier steps.

=== FILE: blockio.dfy ===
/**
 The block file layer. A table file is a flat byte sequence cut into blocks
 of BLOCKSIZE bytes; block `n` starts at byte `n * BLOCKSIZE`. The file
 handle of the source becomes the sequence itself, so `blk_flen` is `|file|`
 and every operation returns the file as it is afterwards.
 */
module BlockIO {
  import opened Wrappers

  /** The source's `byte` is a C `char`. Bytes are only copied, never
      interpreted, so their signedness plays no part. */
  type byte = x: int | 0 <= x < 256

  const BLOCKSIZE: nat := 200

  /** Largest value of a C `int`. */
  const INT_MAX: int := 0x7FFF_FFFF

  /** Largest block number whose byte offset still fits in a C `int`
      (INT_MAX / BLOCKSIZE). */
  const MAX_BLK_NO: nat := 10737418

  /** Block numbers the model accepts: not negative, and small enough that
      the offset computation does not overflow. */
  predicate ValidBlkNo(n: int) {
    0 <= n <= MAX_BLK_NO
  }

  function Min(a: int, b: int): int { if a <= b then a else b }

  function Max(a: int, b: int): int { if a >= b then a else b }

  /** `k` zero bytes, as `calloc` hands them out. */
  function Zeros(k: nat): (z: seq<byte>)
    ensures |z| == k
    ensures forall i | 0 <= i < k :: z[i] == 0
  {
    seq(k, _ => 0)
  }

  /** Byte offset at which block `n` starts. It is block aligned, it names
      block `n` back again, and it fits in an `int`. */
  function Offset(n: int): (off: nat)
    requires ValidBlkNo(n)
    ensures off <= INT_MAX
    ensures off % BLOCKSIZE == 0 && off / BLOCKSIZE == n
  {
    n * BLOCKSIZE
  }

  /** Block `n` lies wholly inside `file` and holds exactly `data`. */
  predicate Stored(file: seq<byte>, n: int, data: seq<byte>)
    requires ValidBlkNo(n)
  {
    Offset(n) + BLOCKSIZE <= |file| && file[Offset(n)..Offset(n) + BLOCKSIZE] == data
  }

  /** Outcome of `blk_write`: the count it returns and the file afterwards. */
  datatype Written = Written(count: int, file: seq<byte>)

  /**
   Writes the BLOCKSIZE bytes of `data` over block `n`. A NULL buffer, or a
   block whose start is not strictly before the end of the file, is refused
   with count 0 and the file untouched. An accepted write overwrites exactly
   the block's bytes; when the file ends inside the block the write runs on
   past the old end, so the file then ends with the block.
   */
  function Write(file: seq<byte>, n: int, data: Option<seq<byte>>): (w: Written)
    requires ValidBlkNo(n)
    requires data.Some? ==> |data.value| == BLOCKSIZE
    ensures data.None? || Offset(n) >= |file| ==> w.count == 0 && w.file == file
    ensures data.Some? && Offset(n) < |file| ==>
              && w.count == BLOCKSIZE
              && Stored(w.file, n, data.value)
              && |w.file| == Max(|file|, Offset(n) + BLOCKSIZE)
              && forall i | 0 <= i < |file| && !(Offset(n) <= i < Offset(n) + BLOCKSIZE) ::
                   w.file[i] == file[i]
    ensures Offset(n) + BLOCKSIZE <= |file| ==> |w.file| == |file|
  {
    if data.None? then Written(0, file)
    else
      var off := Offset(n);
      if off >= |file| then Written(0, file)
      else if off + BLOCKSIZE <= |file| then
        Written(BLOCKSIZE, file[..off] + data.value + file[off + BLOCKSIZE..])
      else
        Written(BLOCKSIZE, file[..off] + data.value)
  }

  /** How many bytes of block `n` the file holds: BLOCKSIZE for a block
      wholly inside it, fewer for a block cut short by the end of the file,
      none for a block at or past the end. */
  function Avail(file: seq<byte>, n: int): nat
    requires ValidBlkNo(n)
  {
    Min(BLOCKSIZE, Max(0, |file| - Offset(n)))
  }

  /** Outcome of `blk_read`: the count it returns and the buffer afterwards. */
  datatype ReadResult = ReadResult(count: nat, buf: seq<byte>)

  /**
   Reads block `n` into the BLOCKSIZE-byte buffer `buf`. A short read is
   reported through the count, and the buffer bytes past the count keep
   what they held before.
   */
  function Read(file: seq<byte>, n: int, buf: seq<byte>): (r: ReadResult)
    requires ValidBlkNo(n)
    requires |buf| == BLOCKSIZE
    ensures r.count == Avail(file, n)
    ensures |r.buf| == BLOCKSIZE
    ensures forall i | 0 <= i < r.count :: r.buf[i] == file[Offset(n) + i]
    ensures forall i | r.count <= i < BLOCKSIZE :: r.buf[i] == buf[i]
  {
    var off := Offset(n);
    if off >= |file| then ReadResult(0, buf)
    else if |file| - off >= BLOCKSIZE then ReadResult(BLOCKSIZE, file[off..off + BLOCKSIZE])
    else ReadResult(|file| - off, file[off..] + buf[|file| - off..])
  }

  /** Outcome of `blk_new`: the id it returns and the file afterwards. */
  datatype Appended = Appended(id: int, file: seq<byte>)

  /**
   Appends BLOCKSIZE zero bytes and returns the file length before the
   append divided by BLOCKSIZE. The bytes already in the file are kept.
   */
  function New(file: seq<byte>): (a: Appended)
    requires |file| / BLOCKSIZE <= INT_MAX
    ensures a.id == |file| / BLOCKSIZE
    ensures |a.file| == |file| + BLOCKSIZE
    ensures a.file[..|file|] == file
    ensures forall i | |file| <= i < |a.file| :: a.file[i] == 0
  {
    Appended(|file| / BLOCKSIZE, file + Zeros(BLOCKSIZE))
  }

  /** Consecutive block numbers name adjacent, non-overlapping byte ranges. */
  lemma OffsetsTile(m: int, n: int)
    requires ValidBlkNo(m) && ValidBlkNo(n)
    ensures m < n ==> Offset(m) + BLOCKSIZE <= Offset(n)
    ensures n == m + 1 ==> Offset(n) == Offset(m) + BLOCKSIZE
    ensures Offset(m) == Offset(n) ==> m == n
  {
  }

  /** A read of a block that lies wholly inside the file returns its bytes in full. */
  lemma ReadStored(file: seq<byte>, n: int, data: seq<byte>, buf: seq<byte>)
    requires ValidBlkNo(n) && |buf| == BLOCKSIZE
    requires Stored(file, n, data)
    ensures Read(file, n, buf) == ReadResult(BLOCKSIZE, data)
  {
    var r := Read(file, n, buf);
    assert |data| == BLOCKSIZE;
    forall i | 0 <= i < BLOCKSIZE
      ensures r.buf[i] == data[i]
    {
      assert data[i] == file[Offset(n) + i];
    }
  }

  /** Round trip: reading a block just written returns the written bytes,
      whatever the buffer held. */
  lemma ReadAfterWrite(file: seq<byte>, n: int, d: seq<byte>, buf: seq<byte>)
    requires ValidBlkNo(n) && |d| == BLOCKSIZE && |buf| == BLOCKSIZE
    requires Offset(n) < |file|
    ensures Write(file, n, Some(d)).count == BLOCKSIZE
    ensures Read(Write(file, n, Some(d)).file, n, buf) == ReadResult(BLOCKSIZE, d)
  {
    ReadStored(Write(file, n, Some(d)).file, n, d, buf);
  }

  /** A write to block `n` is invisible to a read of any other block. */
  lemma WriteLeavesOtherBlocks(file: seq<byte>, n: int, m: int, d: seq<byte>, buf: seq<byte>)
    requires ValidBlkNo(n) && ValidBlkNo(m) && m != n
    requires |d| == BLOCKSIZE && |buf| == BLOCKSIZE
    ensures Read(Write(file, n, Some(d)).file, m, buf) == Read(file, m, buf)
  {
    var w := Write(file, n, Some(d));
    OffsetsTile(m, n);
    OffsetsTile(n, m);
    if Offset(n) < |file| {
      var r0 := Read(file, m, buf);
      var r1 := Read(w.file, m, buf);
      assert r1.count == r0.count;
      forall i | 0 <= i < BLOCKSIZE
        ensures r1.buf[i] == r0.buf[i]
      {
        if i < r0.count {
          assert w.file[Offset(m) + i] == file[Offset(m) + i];
        }
      }
    }
  }

  /** A block that already holds `x` keeps it across a write to another block. */
  lemma StoredSurvivesOtherWrite(file: seq<byte>, n: int, m: int, x: seq<byte>, d: seq<byte>)
    requires ValidBlkNo(n) && ValidBlkNo(m) && m != n && |d| == BLOCKSIZE
    requires Stored(file, n, x)
    ensures Stored(Write(file, m, Some(d)).file, n, x)
  {
    var w := Write(file, m, Some(d));
    OffsetsTile(m, n);
    OffsetsTile(n, m);
    if Offset(m) < |file| {
      forall j | Offset(n) <= j < Offset(n) + BLOCKSIZE
        ensures w.file[j] == file[j]
      {
      }
      assert w.file[Offset(n)..Offset(n) + BLOCKSIZE] == file[Offset(n)..Offset(n) + BLOCKSIZE];
    }
  }

  /** Writing the same bytes to the same block twice leaves the same file as
      writing them once. */
  lemma WriteIdempotent(file: seq<byte>, n: int, d: seq<byte>)
    requires ValidBlkNo(n) && |d| == BLOCKSIZE
    ensures Write(Write(file, n, Some(d)).file, n, Some(d)) == Write(file, n, Some(d))
  {
    var w1 := Write(file, n, Some(d));
    if Offset(n) < |file| {
      var w2 := Write(w1.file, n, Some(d));
      assert |w2.file| == |w1.file|;
      forall i | 0 <= i < |w1.file|
        ensures w2.file[i] == w1.file[i]
      {
        if Offset(n) <= i < Offset(n) + BLOCKSIZE {
          assert w2.file[Offset(n)..Offset(n) + BLOCKSIZE][i - Offset(n)] == d[i - Offset(n)];
          assert w1.file[Offset(n)..Offset(n) + BLOCKSIZE][i - Offset(n)] == d[i - Offset(n)];
        }
      }
    }
  }

  /**
   Append-then-write. On a file made of whole blocks, the id `blk_new`
   returns names exactly the appended block: it starts at the old end of
   the file, so writing it before the append is refused; after the append
   it reads back as zeros, and a write to it succeeds, keeps the file length
   and reads back the written bytes.
   */
  lemma AppendThenWrite(file: seq<byte>, d: seq<byte>, buf: seq<byte>)
    requires |file| % BLOCKSIZE == 0 && |file| / BLOCKSIZE <= MAX_BLK_NO
    requires |d| == BLOCKSIZE && |buf| == BLOCKSIZE
    ensures ValidBlkNo(New(file).id) && Offset(New(file).id) == |file|
    ensures Write(file, New(file).id, Some(d)).count == 0
    ensures Read(New(file).file, New(file).id, buf) == ReadResult(BLOCKSIZE, Zeros(BLOCKSIZE))
    ensures Write(New(file).file, New(file).id, Some(d)).count == BLOCKSIZE
    ensures |Write(New(file).file, New(file).id, Some(d)).file| == |file| + BLOCKSIZE
    ensures Read(Write(New(file).file, New(file).id, Some(d)).file, New(file).id, buf)
              == ReadResult(BLOCKSIZE, d)
  {
    var a := New(file);
    assert Offset(a.id) == |file|;
    assert a.file[|file|..|file| + BLOCKSIZE] == Zeros(BLOCKSIZE);
    ReadStored(a.file, a.id, Zeros(BLOCKSIZE), buf);
    ReadAfterWrite(a.file, a.id, d, buf);
  }
}

=== FILE: page.dfy ===
/**
 The frame record the buffer pool hands out: one block's bytes plus the
 block number, the owning table, the modified flag and the pin count. The
 per-frame semaphore is not modelled.
 */
module Page {
  import opened Wrappers
  import opened BlockIO

  /**
   Identity of a table. The pool tells tables apart by the address of their
   name array, that is by which table record they are; nothing else about a
   table matters to it, so a table is only this identity.
   */
  datatype TableId = TableId(addr: nat)

  /** A buffer frame. `tbl == None` is a frame no table has been loaded into. */
  datatype Frame = Frame(
    data: seq<byte>,
    blkId: int,
    tbl: Option<TableId>,
    modified: bool,
    pinned: nat)

  /** A frame as a zero-filled allocation leaves it. */
  function Blank(): Frame {
    Frame(Zeros(BLOCKSIZE), 0, None, false, 0)
  }

  /** The frame currently holds block `b` of table `t`. A frame with no
      table holds nothing. */
  predicate Holds(f: Frame, t: TableId, b: int) {
    f.tbl == Some(t) && f.blkId == b
  }

  /** Clears a frame to all zero: it then holds no block of any table, is
      unpinned and unmodified, and its buffer is zero bytes. */
  function Erase(f: Frame): (e: Frame)
    ensures forall t, b :: !Holds(e, t, b)
    ensures e.blkId == 0 && e.pinned == 0 && !e.modified
    ensures |e.data| == BLOCKSIZE && forall i | 0 <= i < BLOCKSIZE :: e.data[i] == 0
  {
    Blank()
  }
}

=== FILE: pgbuffer.dfy ===
/**
 The buffer pool: a fixed sequence of frames plus an initialized flag and the
 recorded pool size, over a disk that maps every table to its file. Every
 operation is a pure transition returning the new pool (and the new disk
 when it writes back). Which frame is evicted is fixed by scan order: the
 unpinned frame with the lowest index.
 */
module PgBuffer {
  import opened Wrappers
  import opened BlockIO
  import opened Page

  /** The file of every table the pool may touch. */
  type Disk = map<TableId, seq<byte>>

  /** `size` is the pool size last given to a successful `Init`; destroying
      the pool empties `frames` and clears `initialized` but keeps `size`. */
  datatype Pool = Pool(initialized: bool, size: int, frames: seq<Frame>)

  /** The pool before any `Init`. */
  function Fresh(): Pool {
    Pool(false, 0, [])
  }

  /** The operations scan `size` entries of the frame array, which exists only
      while the pool is initialized; scanning is defined when it is, or when
      there is nothing to scan. */
  predicate Usable(p: Pool) {
    p.initialized || p.size <= 0
  }

  /** A frame the pool can write back: a full buffer, an in-range block
      number, a table whenever it is modified, and a file for that table. */
  predicate FrameOk(f: Frame, disk: Disk) {
    && |f.data| == BLOCKSIZE
    && ValidBlkNo(f.blkId)
    && (f.modified ==> f.tbl.Some?)
    && (f.tbl.Some? ==> f.tbl.value in disk)
  }

  /** No two frames hold the same block of the same table. */
  predicate Distinct(frames: seq<Frame>) {
    forall i, j | 0 <= i < j < |frames| && frames[i].tbl.Some? ::
      !Holds(frames[j], frames[i].tbl.value, frames[i].blkId)
  }

  /** The shape every operation relies on: the frame array matches the
      recorded size while initialized, is absent otherwise, and every frame
      can be written back. */
  predicate WellFormed(p: Pool, disk: Disk) {
    && (p.initialized ==> |p.frames| == p.size)
    && (!p.initialized ==> p.frames == [])
    && (forall i | 0 <= i < |p.frames| :: FrameOk(p.frames[i], disk))
  }

  /** The pool invariant: well formed, and no block resident twice. Calling
      `Load` directly on a resident block is the one way to break it. */
  predicate Valid(p: Pool, disk: Disk) {
    WellFormed(p, disk) && Distinct(p.frames)
  }

  /** A status code together with the pool afterwards. */
  datatype Reply = Reply(status: int, pool: Pool)

  /** The frame a pool operation returned together with the pool and disk
      afterwards, or `Spins`: every frame is pinned and the source loops
      forever looking for one to evict. */
  datatype Access = Spins | Got(frame: nat, pool: Pool, disk: Disk)

  /**
   `buff_pool_init`. On a pool not yet initialized, creates `n` frames, all
   unassigned, unpinned, unmodified and zero-filled, and returns 1. A pool
   that is already initialized is left exactly as it was and 0 is returned;
   so is a negative size, for which the array allocation fails.
   */
  function Init(p: Pool, n: int): (r: Reply)
    ensures p.initialized || n < 0 ==> r == Reply(0, p)
    ensures !p.initialized && n >= 0 ==>
              && r.status == 1
              && r.pool.initialized && r.pool.size == n && |r.pool.frames| == n
              && forall i | 0 <= i < n ::
                   && r.pool.frames[i].tbl.None?
                   && r.pool.frames[i].pinned == 0
                   && !r.pool.frames[i].modified
                   && r.pool.frames[i].data == Zeros(BLOCKSIZE)
                   && r.pool.frames[i].blkId == 0
  {
    if p.initialized || n < 0 then Reply(0, p)
    else Reply(1, Pool(true, n, seq(n, _ => Blank())))
  }

  /**
   `buff_flush`. A modified frame is written to its table's file at its
   block number; an unmodified one writes nothing. The write is refused when
   the block starts at or past the end of the file. Only the disk is
   returned: flushing never clears the frame's modified flag.
   */
  function Flush(f: Frame, disk: Disk): (d: Disk)
    requires FrameOk(f, disk)
    ensures d.Keys == disk.Keys
    ensures forall u | u in disk :: |d[u]| >= |disk[u]|
    ensures forall u | u in disk && f.tbl != Some(u) :: d[u] == disk[u]
    ensures !f.modified ==> d == disk
    ensures f.modified && Offset(f.blkId) >= |disk[f.tbl.value]| ==> d == disk
    ensures f.modified && Offset(f.blkId) < |disk[f.tbl.value]| ==>
              var t := f.tbl.value;
              && Stored(d[t], f.blkId, f.data)
              && |d[t]| == Max(|disk[t]|, Offset(f.blkId) + BLOCKSIZE)
              && forall i | 0 <= i < |disk[t]| && !(Offset(f.blkId) <= i < Offset(f.blkId) + BLOCKSIZE) ::
                   d[t][i] == disk[t][i]
  {
    if f.modified then
      var t := f.tbl.value;
      disk[t := Write(disk[t], f.blkId, Some(f.data)).file]
    else
      disk
  }

  /** Flushes every frame in order, as `buff_pool_destroy` does. Files of
      tables with no modified frame are left exactly as they were. */
  function FlushAll(frames: seq<Frame>, disk: Disk): (d: Disk)
    requires forall i | 0 <= i < |frames| :: FrameOk(frames[i], disk)
    ensures d.Keys == disk.Keys
    ensures forall u | u in disk :: |d[u]| >= |disk[u]|
    ensures forall u | u in disk && (forall i | 0 <= i < |frames| :: !(frames[i].modified && frames[i].tbl == Some(u))) ::
              d[u] == disk[u]
    decreases |frames|
  {
    if frames == [] then disk
    else
      var d1 := Flush(frames[0], disk);
      assert forall i | 0 <= i < |frames[1..]| :: FrameOk(frames[1..][i], d1) by {
        forall i | 0 <= i < |frames[1..]| ensures FrameOk(frames[1..][i], d1) {
          assert FrameOk(frames[i + 1], disk);
        }
      }
      FlushAll(frames[1..], d1)
  }

  /** A file all of whose modified frames lie wholly inside it keeps its
      length through an ordered flush: every write-back overwrites bytes
      already there. */
  lemma {:induction false} FlushAllKeepsLength(frames: seq<Frame>, disk: Disk, u: TableId)
    requires forall i | 0 <= i < |frames| :: FrameOk(frames[i], disk)
    requires u in disk
    requires forall i | 0 <= i < |frames| && frames[i].modified && frames[i].tbl == Some(u) && ValidBlkNo(frames[i].blkId) ::
               Offset(frames[i].blkId) + BLOCKSIZE <= |disk[u]|
    ensures |FlushAll(frames, disk)[u]| == |disk[u]|
    decreases |frames|
  {
    if frames != [] {
      var d1 := Flush(frames[0], disk);
      assert forall i | 0 <= i < |frames[1..]| :: FrameOk(frames[1..][i], d1) by {
        forall i | 0 <= i < |frames[1..]| ensures FrameOk(frames[1..][i], d1) {
          assert FrameOk(frames[i + 1], disk);
        }
      }
      assert |d1[u]| == |disk[u]|;
      forall i | 0 <= i < |frames[1..]| && frames[1..][i].modified && frames[1..][i].tbl == Some(u) && ValidBlkNo(frames[1..][i].blkId)
        ensures Offset(frames[1..][i].blkId) + BLOCKSIZE <= |d1[u]|
      {
        assert frames[1..][i] == frames[i + 1];
      }
      FlushAllKeepsLength(frames[1..], d1, u);
    }
  }

  /** Outcome of `buff_pool_destroy`: the pool and the disk afterwards. */
  datatype Shutdown = Shutdown(pool: Pool, disk: Disk)

  /**
   `buff_pool_destroy`. Writes back every modified frame, then leaves the
   pool uninitialized with no frames and its recorded size unchanged. Files
   of tables with no modified frame are untouched.
   */
  function Destroy(p: Pool, disk: Disk): (r: Shutdown)
    requires WellFormed(p, disk) && Usable(p)
    ensures !r.pool.initialized && r.pool.frames == [] && r.pool.size == p.size
    ensures r.disk.Keys == disk.Keys
    ensures forall u | u in disk && (forall i | 0 <= i < |p.frames| :: !(p.frames[i].modified && p.frames[i].tbl == Some(u))) ::
              r.disk[u] == disk[u]
  {
    Shutdown(Pool(false, p.size, []), FlushAll(p.frames, disk))
  }

  /**
   `buff_find_pg`: the lowest-index frame holding block `b` of table `t`, or
   `None` when no frame holds it. Frames with no table never match.
   */
  function Find(frames: seq<Frame>, t: TableId, b: int): (r: Option<nat>)
    ensures r.None? <==> forall i | 0 <= i < |frames| :: !Holds(frames[i], t, b)
    ensures r.Some? ==>
              && r.value < |frames|
              && Holds(frames[r.value], t, b)
              && forall j | 0 <= j < r.value :: !Holds(frames[j], t, b)
    decreases |frames|
  {
    if frames == [] then None
    else if Holds(frames[0], t, b) then Some(0)
    else
      match Find(frames[1..], t, b)
      case None => None
      case Some(k) => Some(k + 1)
  }

  /** The eviction scan of `buff_load`: the lowest-index unpinned frame, or
      `None` when every frame is pinned. */
  function FirstUnpinned(frames: seq<Frame>): (v: Option<nat>)
    ensures v.None? <==> forall i | 0 <= i < |frames| :: frames[i].pinned > 0
    ensures v.Some? ==>
              && v.value < |frames|
              && frames[v.value].pinned == 0
              && forall j | 0 <= j < v.value :: frames[j].pinned > 0
    decreases |frames|
  {
    if frames == [] then None
    else if frames[0].pinned == 0 then Some(0)
    else
      match FirstUnpinned(frames[1..])
      case None => None
      case Some(k) => Some(k + 1)
  }

  /**
   `buff_load`. Takes the lowest-index unpinned frame as the victim, flushes
   it (so a modified victim's old bytes reach its old table's file first),
   reads block `b` of `t` from the disk as the flush left it into the
   victim's buffer, and makes the victim hold (t, b), unpinned and
   unmodified. No other frame changes. With every frame pinned the source
   spins forever.
   */
  function Load(p: Pool, disk: Disk, t: TableId, b: int): (r: Access)
    requires WellFormed(p, disk) && Usable(p)
    requires t in disk && ValidBlkNo(b)
    ensures r.Spins? <==> forall i | 0 <= i < |p.frames| :: p.frames[i].pinned > 0
    ensures r.Got? ==>
              && r.frame < |p.frames|
              && p.frames[r.frame].pinned == 0
              && (forall j | 0 <= j < r.frame :: p.frames[j].pinned > 0)
              && r.pool.initialized == p.initialized && r.pool.size == p.size
              && |r.pool.frames| == |p.frames|
              && (forall j | 0 <= j < |p.frames| && j != r.frame :: r.pool.frames[j] == p.frames[j])
              && Holds(r.pool.frames[r.frame], t, b)
              && r.pool.frames[r.frame].pinned == 0
              && !r.pool.frames[r.frame].modified
    ensures r.Got? ==>
              var old_ := p.frames[r.frame];
              var f := r.pool.frames[r.frame];
              && r.disk == Flush(old_, disk)
              && r.disk.Keys == disk.Keys
              && (forall u | u in disk && old_.tbl != Some(u) :: r.disk[u] == disk[u])
              && (!old_.modified ==> r.disk == disk)
              && (old_.modified && Offset(old_.blkId) < |disk[old_.tbl.value]| ==>
                    Stored(r.disk[old_.tbl.value], old_.blkId, old_.data))
              && |f.data| == BLOCKSIZE
              && (forall i | 0 <= i < Avail(r.disk[t], b) :: f.data[i] == r.disk[t][Offset(b) + i])
              && (forall i | Avail(r.disk[t], b) <= i < BLOCKSIZE :: f.data[i] == old_.data[i])
  {
    match FirstUnpinned(p.frames)
    case None => Spins
    case Some(v) =>
      var victim := p.frames[v];
      var d := Flush(victim, disk);
      var rd := Read(d[t], b, victim.data);
      var f := Frame(rd.buf, b, Some(t), false, 0);
      Got(v, p.(frames := p.frames[v := f]), d)
  }

  /**
   `buff_find_and_load_pg`. A resident block is returned with nothing
   changed; otherwise it is loaded. Either way the returned frame holds the
   block, and a pool with no block resident twice still has none: loading
   only after the lookup missed is what keeps identities unique.
   */
  function FindAndLoad(p: Pool, disk: Disk, t: TableId, b: int): (r: Access)
    requires WellFormed(p, disk) && Usable(p)
    requires t in disk && ValidBlkNo(b)
    ensures Find(p.frames, t, b).Some? ==> r == Got(Find(p.frames, t, b).value, p, disk)
    ensures Find(p.frames, t, b).None? ==> r == Load(p, disk, t, b)
    ensures r.Spins? <==>
              Find(p.frames, t, b).None? && forall i | 0 <= i < |p.frames| :: p.frames[i].pinned > 0
    ensures r.Got? ==>
              && r.frame < |r.pool.frames|
              && Holds(r.pool.frames[r.frame], t, b)
              && WellFormed(r.pool, r.disk) && Usable(r.pool)
              && (Valid(p, disk) ==> Valid(r.pool, r.disk))
  {
    match Find(p.frames, t, b)
    case Some(i) => Got(i, p, disk)
    case None =>
      var r := Load(p, disk, t, b);
      if r.Got? then
        assert Distinct(p.frames) ==> Distinct(r.pool.frames) by {
          var fs := r.pool.frames;
          if Distinct(p.frames) {
            forall i, j | 0 <= i < j < |fs| && fs[i].tbl.Some?
              ensures !Holds(fs[j], fs[i].tbl.value, fs[i].blkId)
            {
              if i != r.frame && j != r.frame {
                assert fs[i] == p.frames[i] && fs[j] == p.frames[j];
              }
            }
          }
        }
        assert forall i | 0 <= i < |r.pool.frames| :: FrameOk(r.pool.frames[i], r.disk) by {
          forall i | 0 <= i < |r.pool.frames| ensures FrameOk(r.pool.frames[i], r.disk) {
            if i != r.frame {
              assert FrameOk(p.frames[i], disk);
            }
          }
        }
        r
      else r
  }

  /**
   `buff_pin`. Finds or loads the block, then raises the frame's pin count
   by one. A resident block keeps its frame and only that frame's pin count
   changes. A block that is not resident takes the lowest-index unpinned
   frame, which ends up holding it, unmodified, with pin count 1, while
   every other frame is left as it was. The disk and the frame's bytes are
   exactly those `FindAndLoad` leaves, so a dirty victim is flushed first.
   */
  function Pin(p: Pool, disk: Disk, t: TableId, b: int): (r: Access)
    requires WellFormed(p, disk) && Usable(p)
    requires t in disk && ValidBlkNo(b)
    ensures r.Spins? <==>
              Find(p.frames, t, b).None? && forall i | 0 <= i < |p.frames| :: p.frames[i].pinned > 0
    ensures r.Got? ==>
              && r.pool.initialized == p.initialized && r.pool.size == p.size
              && r.disk.Keys == disk.Keys
    ensures Find(p.frames, t, b).Some? ==>
              var i := Find(p.frames, t, b).value;
              r == Got(i, p.(frames := p.frames[i := p.frames[i].(pinned := p.frames[i].pinned + 1)]), disk)
    ensures Find(p.frames, t, b).None? && r.Got? ==>
              && r.frame < |p.frames|
              && p.frames[r.frame].pinned == 0
              && (forall j | 0 <= j < r.frame :: p.frames[j].pinned > 0)
              && |r.pool.frames| == |p.frames|
              && (forall j | 0 <= j < |p.frames| && j != r.frame :: r.pool.frames[j] == p.frames[j])
              && Holds(r.pool.frames[r.frame], t, b)
              && r.pool.frames[r.frame].pinned == 1
              && !r.pool.frames[r.frame].modified
    ensures r.Got? ==>
              var a := FindAndLoad(p, disk, t, b);
              && a.Got? && r.frame == a.frame && r.disk == a.disk
              && r.pool.frames[r.frame].data == a.pool.frames[a.frame].data
  {
    match FindAndLoad(p, disk, t, b)
    case Spins => Spins
    case Got(i, q, d) =>
      Got(i, q.(frames := q.frames[i := q.frames[i].(pinned := q.frames[i].pinned + 1)]), d)
  }

  /**
   `buff_unpin`. Returns 0 and changes nothing when the block is not
   resident, -1 and changes nothing when its pin count is already 0, and
   otherwise lowers that frame's pin count by one and returns 1.
   */
  function Unpin(p: Pool, t: TableId, b: int): (r: Reply)
    requires Usable(p)
    ensures Find(p.frames, t, b).None? ==> r == Reply(0, p)
    ensures Find(p.frames, t, b).Some? && p.frames[Find(p.frames, t, b).value].pinned == 0 ==>
              r == Reply(-1, p)
    ensures Find(p.frames, t, b).Some? && p.frames[Find(p.frames, t, b).value].pinned > 0 ==>
              var i := Find(p.frames, t, b).value;
              && r.status == 1
              && r.pool == p.(frames := p.frames[i := p.frames[i].(pinned := p.frames[i].pinned - 1)])
  {
    match Find(p.frames, t, b)
    case None => Reply(0, p)
    case Some(i) =>
      if p.frames[i].pinned == 0 then Reply(-1, p)
      else Reply(1, p.(frames := p.frames[i := p.frames[i].(pinned := p.frames[i].pinned - 1)]))
  }

  /**
   `buff_modified`. Returns 0 and changes nothing when the block is not
   resident; otherwise sets that frame's modified flag, changes nothing
   else, and returns 1.
   */
  function MarkModified(p: Pool, t: TableId, b: int): (r: Reply)
    requires Usable(p)
    ensures Find(p.frames, t, b).None? ==> r == Reply(0, p)
    ensures Find(p.frames, t, b).Some? ==>
              var i := Find(p.frames, t, b).value;
              && r.status == 1
              && r.pool == p.(frames := p.frames[i := p.frames[i].(modified := true)])
  {
    match Find(p.frames, t, b)
    case None => Reply(0, p)
    case Some(i) => Reply(1, p.(frames := p.frames[i := p.frames[i].(modified := true)]))
  }
}

=== FILE: pgbuffer_props.dfy ===
/**
 Properties of the buffer pool that relate several operations: the pool
 invariant is kept by every operation, pinning and then unpinning undoes
 the pin, destroying the pool writes every modified frame back, an evicted
 block is no longer found, and the full-pool eviction the unit tests walk
 through ends where they expect.
 */
module PgBufferProps {
  import opened Wrappers
  import opened BlockIO
  import opened Page
  import opened PgBuffer

  /** Only the frame that holds (t, b) is found for it. */
  lemma FindIsUnique(frames: seq<Frame>, t: TableId, b: int, i: nat)
    requires Distinct(frames)
    requires i < |frames| && Holds(frames[i], t, b)
    ensures Find(frames, t, b) == Some(i)
  {
  }

  /** Two frame sequences that agree on every frame's identity are
      duplicate-free together. */
  lemma DistinctSameIdentities(fs: seq<Frame>, gs: seq<Frame>)
    requires |fs| == |gs| && Distinct(fs)
    requires forall i | 0 <= i < |fs| :: fs[i].tbl == gs[i].tbl && fs[i].blkId == gs[i].blkId
    ensures Distinct(gs)
  {
    forall i, j | 0 <= i < j < |gs| && gs[i].tbl.Some?
      ensures !Holds(gs[j], gs[i].tbl.value, gs[i].blkId)
    {
      assert fs[i].tbl == gs[i].tbl && fs[j].tbl == gs[j].tbl;
    }
  }

  /** The pool before any `Init` satisfies the invariant, and `Init` keeps it. */
  lemma InitKeepsValid(p: Pool, disk: Disk, n: int)
    ensures Valid(Fresh(), disk)
    ensures Valid(p, disk) ==> Valid(Init(p, n).pool, disk)
  {
  }

  /** Pinning keeps the invariant, and afterwards the pinned block is found
      in exactly the frame `Pin` returned. */
  lemma PinKeepsValid(p: Pool, disk: Disk, t: TableId, b: int)
    requires Valid(p, disk) && Usable(p)
    requires t in disk && ValidBlkNo(b)
    ensures Pin(p, disk, t, b).Got? ==>
              var r := Pin(p, disk, t, b);
              && Valid(r.pool, r.disk) && Usable(r.pool)
              && Find(r.pool.frames, t, b) == Some(r.frame)
  {
    var a := FindAndLoad(p, disk, t, b);
    if a.Got? {
      var r := Pin(p, disk, t, b);
      assert r.pool.frames == a.pool.frames[a.frame := a.pool.frames[a.frame].(pinned := a.pool.frames[a.frame].pinned + 1)];
      DistinctSameIdentities(a.pool.frames, r.pool.frames);
      assert forall i | 0 <= i < |r.pool.frames| :: FrameOk(r.pool.frames[i], r.disk) by {
        forall i | 0 <= i < |r.pool.frames| ensures FrameOk(r.pool.frames[i], r.disk) {
          assert FrameOk(a.pool.frames[i], a.disk);
        }
      }
      FindIsUnique(r.pool.frames, t, b, r.frame);
    }
  }

  /** Unpinning keeps the invariant. */
  lemma UnpinKeepsValid(p: Pool, disk: Disk, t: TableId, b: int)
    requires Valid(p, disk) && Usable(p)
    ensures Valid(Unpin(p, t, b).pool, disk) && Usable(Unpin(p, t, b).pool)
  {
    var q := Unpin(p, t, b).pool;
    if q != p {
      DistinctSameIdentities(p.frames, q.frames);
      assert forall i | 0 <= i < |q.frames| :: FrameOk(q.frames[i], disk) by {
        forall i | 0 <= i < |q.frames| ensures FrameOk(q.frames[i], disk) {
          assert FrameOk(p.frames[i], disk);
        }
      }
    }
  }

  /** Marking a block modified keeps the invariant: only a resident frame,
      which has a table, is ever marked. */
  lemma MarkModifiedKeepsValid(p: Pool, disk: Disk, t: TableId, b: int)
    requires Valid(p, disk) && Usable(p)
    ensures Valid(MarkModified(p, t, b).pool, disk) && Usable(MarkModified(p, t, b).pool)
  {
    var q := MarkModified(p, t, b).pool;
    if q != p {
      DistinctSameIdentities(p.frames, q.frames);
      assert forall i | 0 <= i < |q.frames| :: FrameOk(q.frames[i], disk) by {
        forall i | 0 <= i < |q.frames| ensures FrameOk(q.frames[i], disk) {
          assert FrameOk(p.frames[i], disk);
        }
      }
    }
  }

  /**
   Pin then unpin: the unpin finds the block, succeeds, and leaves the pool
   exactly as `FindAndLoad` alone would have: the prior pool for a resident
   block, the pool with the block loaded and unpinned otherwise.
   */
  lemma PinThenUnpin(p: Pool, disk: Disk, t: TableId, b: int)
    requires Valid(p, disk) && Usable(p)
    requires t in disk && ValidBlkNo(b)
    ensures Pin(p, disk, t, b).Got? ==>
              && Usable(Pin(p, disk, t, b).pool)
              && Unpin(Pin(p, disk, t, b).pool, t, b) == Reply(1, FindAndLoad(p, disk, t, b).pool)
    ensures Find(p.frames, t, b).Some? ==> Unpin(Pin(p, disk, t, b).pool, t, b) == Reply(1, p)
  {
    var r := Pin(p, disk, t, b);
    if r.Got? {
      PinKeepsValid(p, disk, t, b);
      var a := FindAndLoad(p, disk, t, b);
      var u := Unpin(r.pool, t, b);
      assert u.pool.frames == a.pool.frames;
    }
  }

  /** A pin of a block that is not resident evicts the victim's old block:
      afterwards nothing holds it. */
  lemma EvictedNotFound(p: Pool, disk: Disk, t: TableId, b: int)
    requires Valid(p, disk) && Usable(p)
    requires t in disk && ValidBlkNo(b)
    requires Find(p.frames, t, b).None?
    ensures Pin(p, disk, t, b).Got? && p.frames[Pin(p, disk, t, b).frame].tbl.Some? ==>
              var v := Pin(p, disk, t, b).frame;
              Find(Pin(p, disk, t, b).pool.frames, p.frames[v].tbl.value, p.frames[v].blkId).None?
  {
    var r := Pin(p, disk, t, b);
    if r.Got? && p.frames[r.frame].tbl.Some? {
      var v := r.frame;
      var u := p.frames[v].tbl.value;
      var m := p.frames[v].blkId;
      assert Holds(p.frames[v], u, m);
      assert !Holds(p.frames[v], t, b);
      forall j | 0 <= j < |r.pool.frames|
        ensures !Holds(r.pool.frames[j], u, m)
      {
        if j == v {
          assert Holds(r.pool.frames[v], t, b);
        } else {
          assert r.pool.frames[j] == p.frames[j];
          if j < v && p.frames[j].tbl.Some? {
            assert !Holds(p.frames[v], p.frames[j].tbl.value, p.frames[j].blkId);
          } else if j > v {
            assert !Holds(p.frames[j], u, m);
          }
        }
      }
    }
  }

  /** `buff_load` is callable on its own. Called on a block that is
      already resident while some other frame is the first unpinned one, it
      loads the block a second time, so two frames then hold it. */
  lemma DirectLoadDuplicates(p: Pool, disk: Disk, t: TableId, b: int)
    requires WellFormed(p, disk) && Usable(p)
    requires t in disk && ValidBlkNo(b)
    requires Find(p.frames, t, b).Some?
    requires FirstUnpinned(p.frames).Some? && FirstUnpinned(p.frames) != Find(p.frames, t, b)
    ensures Load(p, disk, t, b).Got?
    ensures !Distinct(Load(p, disk, t, b).pool.frames)
  {
    var r := Load(p, disk, t, b);
    var i := Find(p.frames, t, b).value;
    var v := r.frame;
    var fs := r.pool.frames;
    assert Holds(fs[i], t, b) && Holds(fs[v], t, b);
    if i < v {
      assert Holds(fs[v], fs[i].tbl.value, fs[i].blkId);
    } else {
      assert Holds(fs[i], fs[v].tbl.value, fs[v].blkId);
    }
  }

  /** A block that is not resident comes in with the bytes its file holds
      once the victim has been flushed, and a clean victim writes nothing. */
  lemma PinLoadsFileBytes(p: Pool, disk: Disk, t: TableId, b: int)
    requires WellFormed(p, disk) && Usable(p)
    requires t in disk && ValidBlkNo(b)
    requires Find(p.frames, t, b).None?
    ensures Pin(p, disk, t, b).Got? ==>
              var r := Pin(p, disk, t, b);
              && (!p.frames[r.frame].modified ==> r.disk == disk)
              && (Avail(r.disk[t], b) == BLOCKSIZE ==> Stored(r.disk[t], b, r.pool.frames[r.frame].data))
  {
    var r := Pin(p, disk, t, b);
    if r.Got? {
      var l := Load(p, disk, t, b);
      assert r.pool.frames[r.frame].data == l.pool.frames[l.frame].data;
      if Avail(r.disk[t], b) == BLOCKSIZE {
        var f := r.pool.frames[r.frame];
        assert r.disk[t][Offset(b)..Offset(b) + BLOCKSIZE] == f.data;
      }
    }
  }

  /** Flushing twice writes what flushing once does: the flag stays set and
      the same bytes land on the same block again. */
  lemma FlushIdempotent(f: Frame, disk: Disk)
    requires FrameOk(f, disk)
    ensures Flush(f, Flush(f, disk)) == Flush(f, disk)
  {
    if f.modified {
      var t := f.tbl.value;
      WriteIdempotent(disk[t], f.blkId, f.data);
    }
  }

  /** A stored block survives flushing frames none of which is a modified
      frame holding that block. */
  lemma {:induction false} FlushAllKeepsStored(frames: seq<Frame>, disk: Disk, t: TableId, b: int, x: seq<byte>)
    requires forall i | 0 <= i < |frames| :: FrameOk(frames[i], disk)
    requires t in disk && ValidBlkNo(b)
    requires forall i | 0 <= i < |frames| :: !(frames[i].modified && Holds(frames[i], t, b))
    requires Stored(disk[t], b, x)
    ensures Stored(FlushAll(frames, disk)[t], b, x)
    decreases |frames|
  {
    if frames != [] {
      var f := frames[0];
      var d1 := Flush(f, disk);
      if f.modified && f.tbl == Some(t) {
        assert f.blkId != b;
        StoredSurvivesOtherWrite(disk[t], b, f.blkId, x, f.data);
      }
      assert forall i | 0 <= i < |frames[1..]| :: FrameOk(frames[1..][i], d1) by {
        forall i | 0 <= i < |frames[1..]| ensures FrameOk(frames[1..][i], d1) {
          assert FrameOk(frames[i + 1], disk);
        }
      }
      FlushAllKeepsStored(frames[1..], d1, t, b, x);
    }
  }

  /** Every modified frame whose block starts inside its file is on disk
      once all frames have been flushed. */
  lemma {:induction false} FlushAllWritesBack(frames: seq<Frame>, disk: Disk, k: nat)
    requires forall i | 0 <= i < |frames| :: FrameOk(frames[i], disk)
    requires Distinct(frames)
    requires k < |frames| && FrameOk(frames[k], disk) && frames[k].modified
    requires Offset(frames[k].blkId) < |disk[frames[k].tbl.value]|
    ensures Stored(FlushAll(frames, disk)[frames[k].tbl.value], frames[k].blkId, frames[k].data)
    decreases |frames|
  {
    var f := frames[0];
    var d1 := Flush(f, disk);
    assert forall i | 0 <= i < |frames[1..]| :: FrameOk(frames[1..][i], d1) by {
      forall i | 0 <= i < |frames[1..]| ensures FrameOk(frames[1..][i], d1) {
        assert FrameOk(frames[i + 1], disk);
      }
    }
    if k == 0 {
      var t := f.tbl.value;
      forall i | 0 <= i < |frames[1..]|
        ensures !(frames[1..][i].modified && Holds(frames[1..][i], t, f.blkId))
      {
        assert !Holds(frames[i + 1], t, f.blkId);
      }
      FlushAllKeepsStored(frames[1..], d1, t, f.blkId, f.data);
    } else {
      assert Distinct(frames[1..]) by {
        forall i, j | 0 <= i < j < |frames[1..]| && frames[1..][i].tbl.Some?
          ensures !Holds(frames[1..][j], frames[1..][i].tbl.value, frames[1..][i].blkId)
        {
          assert !Holds(frames[j + 1], frames[i + 1].tbl.value, frames[i + 1].blkId);
        }
      }
      assert frames[1..][k - 1] == frames[k];
      FlushAllWritesBack(frames[1..], d1, k - 1);
    }
  }

  /**
   Destroying the pool writes back every modified frame: each one whose
   block starts inside its table's file is stored there afterwards.
   */
  lemma DestroyWritesBack(p: Pool, disk: Disk, k: nat)
    requires Valid(p, disk) && Usable(p)
    requires k < |p.frames| && p.frames[k].modified
    requires Offset(p.frames[k].blkId) < |disk[p.frames[k].tbl.value]|
    ensures Stored(Destroy(p, disk).disk[p.frames[k].tbl.value], p.frames[k].blkId, p.frames[k].data)
  {
    FlushAllWritesBack(p.frames, disk, k);
  }

  /** Destroying the pool keeps the length of a table's file when every
      modified frame of that table lies wholly inside it. */
  lemma DestroyKeepsLength(p: Pool, disk: Disk, u: TableId)
    requires WellFormed(p, disk) && Usable(p) && u in disk
    requires forall i | 0 <= i < |p.frames| && p.frames[i].modified && p.frames[i].tbl == Some(u) ::
               Offset(p.frames[i].blkId) + BLOCKSIZE <= |disk[u]|
    ensures |Destroy(p, disk).disk[u]| == |disk[u]|
  {
    FlushAllKeepsLength(p.frames, disk, u);
  }

  /** The emptied pool `Destroy` leaves satisfies the invariant, and a later
      `Init` can set the pool up again. */
  lemma DestroyKeepsValid(p: Pool, disk: Disk)
    requires WellFormed(p, disk) && Usable(p)
    ensures Valid(Destroy(p, disk).pool, Destroy(p, disk).disk)
    ensures Usable(Destroy(p, disk).pool) <==> p.size <= 0
    ensures p.size >= 0 ==> Init(Destroy(p, disk).pool, p.size).status == 1
  {
  }

  /** A pin that evicts a dirty victim writes the victim's bytes back to its
      old block first (when that block starts inside its file), and changes
      no other table's file. */
  lemma PinWritesBackVictim(p: Pool, disk: Disk, t: TableId, b: int)
    requires WellFormed(p, disk) && Usable(p)
    requires t in disk && ValidBlkNo(b)
    requires Find(p.frames, t, b).None?
    ensures Pin(p, disk, t, b).Got? ==>
              var r := Pin(p, disk, t, b);
              var v := p.frames[r.frame];
              && (forall u | u in disk && v.tbl != Some(u) :: r.disk[u] == disk[u])
              && (v.modified && Offset(v.blkId) < |disk[v.tbl.value]| ==>
                    Stored(r.disk[v.tbl.value], v.blkId, v.data))
  {
  }

  /** `buff_erase` on any frame of a duplicate-free sequence keeps it
      duplicate-free, and the erased frame is then found for no block. */
  lemma EraseKeepsDistinct(frames: seq<Frame>, i: nat, t: TableId, b: int)
    requires Distinct(frames) && i < |frames|
    ensures Distinct(frames[i := Erase(frames[i])])
    ensures Find(frames[i := Erase(frames[i])], t, b) != Some(i)
  {
    var gs := frames[i := Erase(frames[i])];
    forall j, k | 0 <= j < k < |gs| && gs[j].tbl.Some?
      ensures !Holds(gs[k], gs[j].tbl.value, gs[j].blkId)
    {
      assert gs[j] == frames[j];
      if k != i {
        assert gs[k] == frames[k];
      }
    }
  }

  /** Pinning a block that is not resident when frame `v` is the first
      unpinned frame and is clean: the block lands in frame `v` pinned once,
      nothing is written, every other frame stays as it was. */
  lemma PinIntoCleanVictim(p: Pool, disk: Disk, t: TableId, b: int, v: nat)
    requires Valid(p, disk) && Usable(p)
    requires t in disk && ValidBlkNo(b)
    requires Find(p.frames, t, b).None?
    requires v < |p.frames| && p.frames[v].pinned == 0 && !p.frames[v].modified
    requires forall j | 0 <= j < v :: p.frames[j].pinned > 0
    ensures Pin(p, disk, t, b).Got?
    ensures var r := Pin(p, disk, t, b);
            && r.frame == v && r.disk == disk
            && r.pool.initialized == p.initialized && r.pool.size == p.size
            && |r.pool.frames| == |p.frames|
            && (forall j | 0 <= j < |p.frames| && j != v :: r.pool.frames[j] == p.frames[j])
            && Holds(r.pool.frames[v], t, b) && r.pool.frames[v].pinned == 1
            && !r.pool.frames[v].modified
            && Valid(r.pool, r.disk) && Usable(r.pool)
  {
    PinKeepsValid(p, disk, t, b);
    PinLoadsFileBytes(p, disk, t, b);
  }

  /**
   The full-pool eviction of the unit tests. Three frames hold blocks 0, 1
   and 2 of one table, pinned once, unpinned and pinned once. Pinning
   block 4 reuses frame 1, the one unpinned frame: it ends up holding block
   4 pinned once, frames 0 and 2 are untouched, block 1 is no longer found
   and block 4 is found in frame 1. Nothing is written unless frame 1 was
   modified.
   */
  lemma FullPoolEviction(p: Pool, disk: Disk, t: TableId)
    requires Valid(p, disk) && Usable(p) && |p.frames| == 3 && t in disk
    requires Holds(p.frames[0], t, 0) && p.frames[0].pinned == 1
    requires Holds(p.frames[1], t, 1) && p.frames[1].pinned == 0
    requires Holds(p.frames[2], t, 2) && p.frames[2].pinned == 1
    ensures Pin(p, disk, t, 4).Got?
    ensures var r := Pin(p, disk, t, 4);
            && r.frame == 1 && |r.pool.frames| == 3
            && r.pool.frames[0] == p.frames[0]
            && r.pool.frames[2] == p.frames[2]
            && Holds(r.pool.frames[1], t, 4) && r.pool.frames[1].pinned == 1
            && !r.pool.frames[1].modified
            && (!p.frames[1].modified ==> r.disk == disk)
            && Find(r.pool.frames, t, 0) == Some(0)
            && Find(r.pool.frames, t, 1).None?
            && Find(r.pool.frames, t, 2) == Some(2)
            && Find(r.pool.frames, t, 4) == Some(1)
  {
    assert Find(p.frames, t, 4).None?;
    var r := Pin(p, disk, t, 4);
    PinKeepsValid(p, disk, t, 4);
    PinLoadsFileBytes(p, disk, t, 4);
    EvictedNotFound(p, disk, t, 4);
    FindIsUnique(r.pool.frames, t, 0, 0);
    FindIsUnique(r.pool.frames, t, 2, 2);
  }
}

=== FILE: wrappers.dfy ===
/** Optional values, standing in for the C code's nullable pointers. */
module Wrappers {

  /** `None` plays the part of a NULL pointer. */
  datatype Option<+T> = None | Some(value: T)
}
